=== FILE: README.md ===
# ai-search handler, modelled in Dafny

This project models the decision logic of the `ai-search` serverless function
(`supabase/functions/ai-search/index.ts`): the one handler of the
institutional-memory product that holds logic. It takes a free-text query,
reads recent meetings and policies, asks a hosted language model to rank them,
and returns a `results` array. The model covers four parts:

- the order of the request checks: preflight, query, authorization header,
  user verification and API key;
- how the gateway's HTTP status is mapped onto the handler's response;
- the best-effort extraction of a JSON array from the model's reply with
  `/\[[\s\S]*\]/`;
- the deterministic fallback filter used when that extraction throws.

Every call out of the handler is an input of the model. That covers the request
body, the auth service, the two table queries, the environment key, the gateway
and its reply, and `JSON.parse`. The handler is the total function
`Handler.Handle`. It returns the response together with the trace of remote
calls it made, so "no data fetch and no model call" can be stated and proved.

Modules, one file each:

- `Wrappers` (`wrappers.dfy`): `Option`, standing for `undefined`/`null`.
- `Text` (`text.dfy`): JavaScript truthiness of a string, ASCII `toLowerCase`,
  `includes`, and the case-insensitive reading of the two together.
- `Seqs` (`seqs.dfy`): `filter`, `slice(0, n)`, `map`, and `Positions`, the
  indices a filter keeps.
- `Extraction` (`extraction.dfy`): the regular-expression match, written as
  "first `[` to last `]`", proved equal to the leftmost-longest bracket span.
- `Records` (`records.dfy`): meeting and policy rows, result entries.
- `Fallback` (`fallback.dfy`): summary defaulting and the 3 + 2 title filter.
- `Handler` (`handler.dfy`): the inputs, the response, the extraction step
  and `Handle`.
- `Properties` (`properties.dfy`): what `Handle` promises, stated over all
  requests and backends.

Three behaviours of the code are easy to misread:

- A missing query and a missing authorization header end in the catch-all
  500, not a 4xx status.
- A reply that holds no bracket span gives `results: []`. The fallback filter
  is not used: only an exception reaches the `catch` at line 107.
- Results parsed from the model's reply are returned as they are. The "top 5"
  exists only in the prompt text (line 75), and nothing in the code enforces
  it.

## Model

| member | source | states |
|---|---|---|
| `Text.LowerChar` | supabase/functions/ai-search/index.ts:112 | lower-casing one character leaves no upper-case ASCII letter and changes nothing else |
| `Text.Lower` | supabase/functions/ai-search/index.ts:112 | `toLowerCase` keeps the length and lower-cases each character in place |
| `Text.LowerCharAgrees` | supabase/functions/ai-search/index.ts:112 | two characters lower-case to the same character exactly when they are the same letter up to ASCII case |
| `Text.Includes` | supabase/functions/ai-search/index.ts:112 | `includes` holds exactly when the pattern occurs at some index of the text (the empty pattern always does) |
| `Text.LowerIncludesIgnoresCase` | supabase/functions/ai-search/index.ts:111-112 | `t.toLowerCase().includes(q.toLowerCase())` holds exactly when q occurs in t with letters compared regardless of case |
| `Seqs.Filter` | supabase/functions/ai-search/index.ts:111-112 | `filter` keeps only elements of the input that pass, and never lengthens it |
| `Seqs.Positions` | supabase/functions/ai-search/index.ts:111-112 | there are no more kept indices than elements |
| `Seqs.FilterAtPositions` | supabase/functions/ai-search/index.ts:111-113 | the j-th element `filter` keeps is the input element at the j-th kept position, and those positions strictly ascend: fetch order is kept |
| `Seqs.PositionsComplete` | supabase/functions/ai-search/index.ts:111-112 | an index is kept exactly when its element passes the test: no passing record is dropped, no failing one kept |
| `Seqs.FirstN` | supabase/functions/ai-search/index.ts:113 | `slice(0, n)` is the prefix of length min(n, length) |
| `Seqs.MapSeq` | supabase/functions/ai-search/index.ts:113-117 | `map` keeps the length and transforms each element in place |
| `Extraction.FirstIndex` | supabase/functions/ai-search/index.ts:103 | the index found holds the character and no earlier index does; absent only when the character is nowhere |
| `Extraction.LastIndex` | supabase/functions/ai-search/index.ts:103 | the index found holds the character and no later index does; absent only when the character is nowhere |
| `Extraction.MatchArray` | supabase/functions/ai-search/index.ts:103-104 | the regex matches exactly when a `[` is followed later by a `]`; the match starts at or before every other such span and ends at or after each |
| `Fallback.MeetingSummary` | supabase/functions/ai-search/index.ts:116 | the summary is a non-empty description if present, else a non-empty summary, else "No description available"; never empty |
| `Fallback.PolicySummary` | supabase/functions/ai-search/index.ts:123 | the summary is a non-empty description if present, else "No description available"; never empty |
| `Fallback.MeetingEntry` | supabase/functions/ai-search/index.ts:113-117 | a kept meeting maps to an entry of kind `meeting` with the meeting's title, its defaulted (never empty) summary, and no relevance |
| `Fallback.PolicyEntry` | supabase/functions/ai-search/index.ts:120-124 | a kept policy maps to an entry of kind `policy` with the policy's title, its defaulted (never empty) summary, and no relevance |
| `Fallback.Group` | supabase/functions/ai-search/index.ts:111-124 | filter-then-slice gives min(cap, number of matching records) entries, the j-th built from the j-th matching record in fetch order |
| `Fallback.MeetingEntries` | supabase/functions/ai-search/index.ts:111-117 | at most 3 entries, all of kind `meeting`, each from a fetched meeting whose title contains the query ignoring case; they are the first min(3, matches) matching meetings in order |
| `Fallback.PolicyEntries` | supabase/functions/ai-search/index.ts:118-124 | at most 2 entries, all of kind `policy`, each from a fetched policy whose title contains the query ignoring case; they are the first min(2, matches) matching policies in order |
| `Fallback.FallbackResults` | supabase/functions/ai-search/index.ts:110-125 | at most 5 entries: exactly the meeting entries (at most 3) followed by exactly the policy entries (at most 2); an entry has kind `meeting` iff it lies in the first part; every meeting entry is built from a fetched meeting whose title matches the query, and every policy entry from a matching fetched policy |
| `Handler.Fail` | supabase/functions/ai-search/index.ts:132-137 | the top-level `catch` answers status 500 with JSON and CORS headers and the error's message as the body, after the remote calls already made |
| `Handler.UpstreamFailure` | supabase/functions/ai-search/index.ts:81-95 | a non-OK status 429 or 402 is passed through with its own message; any other non-OK status becomes 500 "AI search failed"; CORS headers kept |
| `Handler.Extract` | supabase/functions/ai-search/index.ts:98-107 | there is no array exactly when the reply has no bracket span; a parsed array is what parsing the regex match (first `[` to last `]`) gave; extraction throws exactly when the content is absent or the matched span does not parse |
| `Handler.Results` | supabase/functions/ai-search/index.ts:100-126 | the `results` are exactly the parsed array when the span parses, empty when there is no span, and the fallback (at most five entries) when extraction throws |
| `Handler.Handle` | supabase/functions/ai-search/index.ts:9-139 | every response carries the CORS headers; the status is 200, 402, 429 or 500; the body is an error exactly when the status is not 200; there is no body exactly for OPTIONS; the remote calls are always a prefix of verify user, fetch records, call model; a 402 or 429 only follows a model call |
| `Properties.PreflightAnswersEmpty` | supabase/functions/ai-search/index.ts:10-12 | OPTIONS gets status 200, CORS headers, a null body, and no remote call |
| `Properties.QueryCheckedFirst` | supabase/functions/ai-search/index.ts:15-19 | a falsy query gets 500 "Search query is required", whatever the authorization header, with no remote call |
| `Properties.AuthorizationHeaderRequired` | supabase/functions/ai-search/index.ts:22-25 | a truthy query without an authorization header gets 500 "No authorization header" with no remote call |
| `Properties.UnverifiedCallerRejected` | supabase/functions/ai-search/index.ts:35-39 | a caller the auth service does not verify gets 500 "Unauthorized"; only the verification call is made |
| `Properties.RemoteCallsFollowGates` | supabase/functions/ai-search/index.ts:17-58 | the tables are queried only after query, header and user checks pass; the model is called exactly when all checks and the API key pass |
| `Properties.UpstreamStatusMapped` | supabase/functions/ai-search/index.ts:81-95 | for an admitted request, gateway 429 gives 429 with the rate-limit message, 402 gives 402 with the payment message, any other non-OK status gives 500 "AI search failed" |
| `Properties.AnsweredGivesResults` | supabase/functions/ai-search/index.ts:97-131 | an admitted request whose gateway answers OK with readable content gets 200, JSON and CORS headers, and the `results` of the extraction step, after exactly the three remote calls |
| `Properties.ParsedArrayReturnedUnchanged` | supabase/functions/ai-search/index.ts:100-106 | when the bracket span parses, the response is 200 with exactly the parsed array: no cap, no filtering |
| `Properties.NoArrayGivesNoResults` | supabase/functions/ai-search/index.ts:100-106 | a reply without a bracket span gives 200 with empty results and the fallback is not used |
| `Properties.FallbackWhenExtractionThrows` | supabase/functions/ai-search/index.ts:100-131 | when extraction throws, the response is 200 with the fallback results; otherwise it is the parsed array or empty |
| `Properties.TitleMatchIgnoresCase` | supabase/functions/ai-search/index.ts:111-112 | the fallback's title test is a case-insensitive substring test |
| `Properties.BudgetTitleMatches` | supabase/functions/ai-search/index.ts:111-112 | the query "budget" matches the title "Q4 Budget Planning" |
| `Properties.BudgetMeetingFound` | supabase/functions/ai-search/index.ts:110-117 | with one meeting "Q4 Budget Planning" and query "budget", the fallback is exactly that meeting, of kind `meeting`, summarised by its description |

## Left out

- Supabase client creation and the two table queries (lines 28-45) are inputs: the rows are given, or `null`. The data store applies `order('created_at')` and `limit(50)`, so neither is modelled.
- `Promise.all` (line 42): the two reads are modelled as one step, `FetchRecords`.
- The prompt and the gateway request (lines 53-79) are left out: the URL, the model identifier, the message texts and `JSON.stringify` of the rows. Only the gateway's outcome is modelled: it threw, or it gave a status and a reply.
- `JSON.parse` is an uninterpreted `Parser` input. Parsed array elements are abstracted as `SearchResult` records; JSON values of other shapes are not modelled.
- `toLowerCase` folds only the ASCII letters A-Z. Unicode case mapping is left out.
- `SUPABASE_URL` and `SUPABASE_ANON_KEY` (lines 28-29) are read with a non-null assertion and are not modelled. `LOVABLE_API_KEY` is modelled as an optional string.
- The query is modelled as an optional string. A truthy non-string query, such as a number, is accepted; it throws at `query.toLowerCase()` (ending as a 500) only when the fallback runs over at least one row. This case is not modelled.
- Row titles are modelled as strings. A `null` title would throw inside the fallback and end as a 500; this case is not modelled.
- The messages of exceptions raised by foreign code are inputs. Foreign code here means `req.json()`, `fetch` and `response.json()`, including a missing `choices` field.
- `console.error` logging (lines 108 and 133) and the `serve` runtime are left out.
- The React pages and components are presentation only. The dashboard's blank-query guard runs in the browser and is not part of the handler.

=== FILE: extraction.dfy ===
/**
  Best-effort extraction of a JSON array from the model's free-text reply:
  `reply.match(/\[[\s\S]*\]/)`. The class `[\s\S]` matches every
  character, so the greedy, leftmost match runs from the first `[` to the
  last `]`, provided that `]` comes after the `[`.
 */
module Extraction {
  import opened Wrappers

  /** The index of the first occurrence of `c` in `s`. */
  function FirstIndex(s: string, c: char): (r: Option<nat>)
    ensures r.Some? ==> r.value < |s| && s[r.value] == c && forall k :: 0 <= k < r.value ==> s[k] != c
    ensures r.None? ==> forall k :: 0 <= k < |s| ==> s[k] != c
    decreases |s|
  {
    if |s| == 0 then None
    else if s[0] == c then Some(0)
    else match FirstIndex(s[1..], c)
      case None => None
      case Some(i) => Some(i + 1)
  }

  /** The index of the last occurrence of `c` in `s`. */
  function LastIndex(s: string, c: char): (r: Option<nat>)
    ensures r.Some? ==> r.value < |s| && s[r.value] == c && forall k :: r.value < k < |s| ==> s[k] != c
    ensures r.None? ==> forall k :: 0 <= k < |s| ==> s[k] != c
    decreases |s|
  {
    if |s| == 0 then None
    else if s[|s| - 1] == c then Some(|s| - 1)
    else LastIndex(s[..|s| - 1], c)
  }

  /**
    `s[i..j+1]` is a string the regular expression can match: it opens with
    `[`, closes with a later `]`, and anything may lie between.
   */
  predicate IsBracketSpan(s: string, i: int, j: int) {
    0 <= i < j < |s| && s[i] == '[' && s[j] == ']'
  }

  /**
    The match of `/\[[\s\S]*\]/` in `s`, or `None` when `match` returns
    `null`. The result is the leftmost-longest bracket span: there is a match
    exactly when some span exists, and the one returned starts no later and
    ends no earlier than any other span.
   */
  function MatchArray(s: string): (r: Option<string>)
    ensures r.Some? <==> exists i, j :: IsBracketSpan(s, i, j)
    ensures r.Some? ==> exists i, j ::
      && IsBracketSpan(s, i, j)
      && r.value == s[i..j + 1]
      && forall i', j' :: IsBracketSpan(s, i', j') ==> i <= i' && j' <= j
  {
    match FirstIndex(s, '[')
    case None => None
    case Some(i) =>
      match LastIndex(s, ']')
      case None => None
      case Some(j) =>
        if i < j then
          assert IsBracketSpan(s, i, j);
          Some(s[i..j + 1])
        else
          None
  }
}

=== FILE: fallback.dfy ===
/**
  The deterministic filter used when the model's reply cannot be parsed:
  meetings whose title contains the query, ignoring case, first three;
  then policies the same way, first two. Line numbers refer to
  `supabase/functions/ai-search/index.ts`.
 */
module Fallback {
  import opened Wrappers
  import opened Text
  import opened Seqs
  import opened Records

  const NoDescription: string := "No description available"
  const MeetingCap: nat := 3
  const PolicyCap: nat := 2

  /** `title.toLowerCase().includes(query.toLowerCase())` */
  predicate TitleMatches(title: string, query: string) {
    Includes(Lower(title), Lower(query))
  }

  function MeetingHit(query: string): Meeting -> bool {
    (m: Meeting) => TitleMatches(m.title, query)
  }

  function PolicyHit(query: string): Policy -> bool {
    (p: Policy) => TitleMatches(p.title, query)
  }

  /** `m.description || m.summary || 'No description available'` */
  function MeetingSummary(m: Meeting): (r: string)
    ensures r != ""
    ensures Truthy(m.description) ==> r == m.description.value
    ensures !Truthy(m.description) && Truthy(m.summary) ==> r == m.summary.value
    ensures !Truthy(m.description) && !Truthy(m.summary) ==> r == NoDescription
  {
    if Truthy(m.description) then m.description.value
    else if Truthy(m.summary) then m.summary.value
    else NoDescription
  }

  /** `p.description || 'No description available'` */
  function PolicySummary(p: Policy): (r: string)
    ensures r != ""
    ensures Truthy(p.description) ==> r == p.description.value
    ensures !Truthy(p.description) ==> r == NoDescription
  {
    if Truthy(p.description) then p.description.value else NoDescription
  }

  /** The `map` callback of lines 113-117. */
  function MeetingEntry(m: Meeting): (e: SearchResult)
    ensures e.kind == MeetingKind && e.title == m.title && e.relevance.None?
    ensures e.summary == MeetingSummary(m) && e.summary != ""
  {
    SearchResult(MeetingKind, m.title, MeetingSummary(m), None)
  }

  /** The `map` callback of lines 120-124. */
  function PolicyEntry(p: Policy): (e: SearchResult)
    ensures e.kind == PolicyKind && e.title == p.title && e.relevance.None?
    ensures e.summary == PolicySummary(p) && e.summary != ""
  {
    SearchResult(PolicyKind, p.title, PolicySummary(p), None)
  }

  /**
    `records.filter(hit).slice(0, cap).map(entry)`: the entries of the first
    `cap` records that pass `hit`, in fetch order. Fewer than `cap` entries
    come back only when fewer records pass.
   */
  function Group<T>(records: seq<T>, hit: T -> bool, cap: nat, entry: T -> SearchResult): (r: seq<SearchResult>)
    ensures |r| == Min(cap, |Positions(records, hit)|)
    ensures forall j :: 0 <= j < |r| ==>
      Positions(records, hit)[j] < |records| && r[j] == entry(records[Positions(records, hit)[j]])
  {
    FilterAtPositions(records, hit);
    MapSeq(entry, FirstN(Filter(records, hit), cap))
  }

  /** The meeting half of the fallback (lines 111-117). */
  function MeetingEntries(meetings: seq<Meeting>, query: string): (r: seq<SearchResult>)
    ensures |r| <= MeetingCap
    ensures |r| == Min(MeetingCap, |Positions(meetings, MeetingHit(query))|)
    ensures forall j :: 0 <= j < |r| ==>
      Positions(meetings, MeetingHit(query))[j] < |meetings| && r[j] == MeetingEntry(meetings[Positions(meetings, MeetingHit(query))[j]])
    ensures forall e :: e in r ==>
      && e.kind == MeetingKind
      && exists m :: m in meetings && TitleMatches(m.title, query) && e == MeetingEntry(m)
  {
    var r := Group(meetings, MeetingHit(query), MeetingCap, MeetingEntry);
    PositionsComplete(meetings, MeetingHit(query));
    assert forall j :: 0 <= j < |r| ==> meetings[Positions(meetings, MeetingHit(query))[j]] in meetings;
    r
  }

  /** The policy half of the fallback (lines 118-124). */
  function PolicyEntries(policies: seq<Policy>, query: string): (r: seq<SearchResult>)
    ensures |r| <= PolicyCap
    ensures |r| == Min(PolicyCap, |Positions(policies, PolicyHit(query))|)
    ensures forall j :: 0 <= j < |r| ==>
      Positions(policies, PolicyHit(query))[j] < |policies| && r[j] == PolicyEntry(policies[Positions(policies, PolicyHit(query))[j]])
    ensures forall e :: e in r ==>
      && e.kind == PolicyKind
      && exists p :: p in policies && TitleMatches(p.title, query) && e == PolicyEntry(p)
  {
    var r := Group(policies, PolicyHit(query), PolicyCap, PolicyEntry);
    PositionsComplete(policies, PolicyHit(query));
    assert forall j :: 0 <= j < |r| ==> policies[Positions(policies, PolicyHit(query))[j]] in policies;
    r
  }

  /**
    The whole fallback result: at most three meeting entries followed by at
    most two policy entries, so never more than five.
   */
  function FallbackResults(meetings: seq<Meeting>, policies: seq<Policy>, query: string): (r: seq<SearchResult>)
    ensures |r| <= MeetingCap + PolicyCap
    ensures |MeetingEntries(meetings, query)| <= |r|
    ensures r[..|MeetingEntries(meetings, query)|] == MeetingEntries(meetings, query)
    ensures r[|MeetingEntries(meetings, query)|..] == PolicyEntries(policies, query)
    ensures |r| - |MeetingEntries(meetings, query)| <= PolicyCap
    ensures forall i :: 0 <= i < |r| ==>
      (r[i].kind == MeetingKind <==> i < |MeetingEntries(meetings, query)|)
    ensures forall e :: e in r && e.kind == MeetingKind ==>
      exists m :: m in meetings && TitleMatches(m.title, query) && e == MeetingEntry(m)
    ensures forall e :: e in r && e.kind == PolicyKind ==>
      exists p :: p in policies && TitleMatches(p.title, query) && e == PolicyEntry(p)
    ensures forall i :: 0 <= i < |r| ==> r[i].kind == MeetingKind || r[i].kind == PolicyKind
  {
    var ms, ps := MeetingEntries(meetings, query), PolicyEntries(policies, query);
    assert forall i :: 0 <= i < |ms| ==> ms[i] in ms;
    assert forall i :: 0 <= i < |ps| ==> ps[i] in ps;
    ms + ps
  }
}

=== FILE: handler.dfy ===
/**
  The `ai-search` request handler as a total function. Every call out of the
  handler (reading the request body, verifying the user, querying the two
  tables, reading the API key, calling the model gateway, reading its
  answer, `JSON.parse`) is an input, and the outcome records which of the
  three remote calls were made. Line numbers refer to
  `supabase/functions/ai-search/index.ts`.
 */
module Handler {
  import opened Wrappers
  import opened Text
  import opened Records
  import opened Extraction
  import opened Fallback

  const CorsHeaders: map<string, string> := map[
    "Access-Control-Allow-Origin" := "*",
    "Access-Control-Allow-Headers" := "authorization, x-client-info, apikey, content-type"]
  const JsonHeaders: map<string, string> := CorsHeaders["Content-Type" := "application/json"]

  const QueryRequired: string := "Search query is required"
  const NoAuthorization: string := "No authorization header"
  const Unauthorized: string := "Unauthorized"
  const KeyMissing: string := "LOVABLE_API_KEY not configured"
  const RateLimited: string := "Rate limits exceeded, please try again later."
  const PaymentRequired: string := "Payment required, please add funds to your Lovable AI workspace."
  const SearchFailed: string := "AI search failed"

  /** What `req.json()` produced: a body whose `query` may be absent, or an exception. */
  datatype RequestBody = BodyUnreadable(message: string) | Json(query: Option<string>)

  datatype Request = Request(verb: string, body: RequestBody, authorization: Option<string>)

  /** `supabase.auth.getUser()`: a user came back without error, or not. */
  datatype AuthOutcome = Verified | NotVerified

  /**
    What `response.json()` and `data.choices[0]?.message?.content` gave: an
    exception (body not JSON, no `choices`), or the content, absent when it
    is `undefined`, `null` or not a string.
   */
  datatype Reply = ReplyUnreadable(message: string) | Content(content: Option<string>)

  /** The gateway call: `fetch` threw, or it answered with a status and a reply. */
  datatype Upstream = Unreachable(message: string) | Answered(status: int, reply: Reply)

  /** Everything outside the handler that it consults. `None` rows stand for a `null` `data`. */
  datatype Backend = Backend(
    auth: AuthOutcome,
    meetings: Option<seq<Meeting>>,
    policies: Option<seq<Policy>>,
    apiKey: Option<string>,
    upstream: Upstream)

  /** `JSON.parse` of the extracted span: the parsed array, or `None` when it throws. */
  type Parser = string -> Option<seq<SearchResult>>

  datatype Body = NoBody | ResultsBody(results: seq<SearchResult>) | ErrorBody(error: string)

  datatype Response = Response(status: int, headers: map<string, string>, body: Body)

  /** The remote calls the handler makes, in order. */
  datatype Call = VerifyUser | FetchRecords | CallModel

  datatype Outcome = Outcome(response: Response, calls: seq<Call>)

  /** `response.ok` */
  predicate Ok(status: int) {
    200 <= status <= 299
  }

  predicate CarriesCors(headers: map<string, string>) {
    forall k :: k in CorsHeaders ==> k in headers && headers[k] == CorsHeaders[k]
  }

  /** The top-level `catch`: status 500 with the exception's message. */
  function Fail(message: string, calls: seq<Call>): (o: Outcome)
    ensures o.response.status == 500 && o.response.body == ErrorBody(message)
    ensures CarriesCors(o.response.headers)
    ensures "Content-Type" in o.response.headers && o.response.headers["Content-Type"] == "application/json"
    ensures o.calls == calls
  {
    Outcome(Response(500, JsonHeaders, ErrorBody(message)), calls)
  }

  /**
    A gateway status that is not OK: 429 and 402 are passed through with
    their own messages, any other becomes the generic failure.
   */
  function UpstreamFailure(status: int): (r: Response)
    requires !Ok(status)
    ensures r.status == 429 <==> status == 429
    ensures r.status == 402 <==> status == 402
    ensures r.status == 429 || r.status == 402 || r.status == 500
    ensures status == 429 ==> r.body == ErrorBody(RateLimited)
    ensures status == 402 ==> r.body == ErrorBody(PaymentRequired)
    ensures status != 429 && status != 402 ==> r.body == ErrorBody(SearchFailed)
    ensures CarriesCors(r.headers)
  {
    if status == 429 then Response(429, JsonHeaders, ErrorBody(RateLimited))
    else if status == 402 then Response(402, JsonHeaders, ErrorBody(PaymentRequired))
    else Response(500, JsonHeaders, ErrorBody(SearchFailed))
  }

  /** How the extraction step of lines 100-106 ended. */
  datatype Extracted = Parsed(items: seq<SearchResult>) | NoArray | Threw

  /**
    `aiResponse.match(...)` then `JSON.parse`. It throws when the content is
    absent (`.match` on a non-string) or when the span does not parse; it
    yields nothing when the content holds no bracket span.
   */
  function Extract(content: Option<string>, parse: Parser): (r: Extracted)
    ensures r.NoArray? <==> content.Some? && !exists i, j :: IsBracketSpan(content.value, i, j)
    ensures r.Parsed? ==>
      && content.Some?
      && MatchArray(content.value).Some?
      && parse(MatchArray(content.value).value) == Some(r.items)
    ensures r.Threw? <==> content.None? || (MatchArray(content.value).Some? && parse(MatchArray(content.value).value).None?)
  {
    match content
    case None => Threw
    case Some(s) =>
      match MatchArray(s)
      case None => NoArray
      case Some(span) =>
        match parse(span)
        case None => Threw
        case Some(items) => Parsed(items)
  }

  /** The `results` of lines 100-126: the parsed array, empty, or the fallback. */
  function Results(extracted: Extracted, meetings: seq<Meeting>, policies: seq<Policy>, query: string): (r: seq<SearchResult>)
    ensures extracted.Parsed? ==> r == extracted.items
    ensures extracted.NoArray? ==> r == []
    ensures extracted.Threw? ==> r == FallbackResults(meetings, policies, query) && |r| <= MeetingCap + PolicyCap
  {
    match extracted
    case Parsed(items) => items
    case NoArray => []
    case Threw => FallbackResults(meetings, policies, query)
  }

  /** The `serve` callback. */
  function Handle(req: Request, backend: Backend, parse: Parser): (o: Outcome)
    ensures CarriesCors(o.response.headers)
    ensures o.response.status in {200, 402, 429, 500}
    ensures o.response.body.ErrorBody? <==> o.response.status != 200
    ensures o.response.body.NoBody? <==> req.verb == "OPTIONS"
    ensures o.calls == [] || o.calls == [VerifyUser] || o.calls == [VerifyUser, FetchRecords]
      || o.calls == [VerifyUser, FetchRecords, CallModel]
    ensures o.response.status in {402, 429} ==> CallModel in o.calls
  {
    if req.verb == "OPTIONS" then
      Outcome(Response(200, CorsHeaders, NoBody), [])
    else
      match req.body
      case BodyUnreadable(message) => Fail(message, [])
      case Json(query) =>
        if !Truthy(query) then Fail(QueryRequired, [])
        else if !Truthy(req.authorization) then Fail(NoAuthorization, [])
        else if backend.auth == NotVerified then Fail(Unauthorized, [VerifyUser])
        else if !Truthy(backend.apiKey) then Fail(KeyMissing, [VerifyUser, FetchRecords])
        else
          var calls := [VerifyUser, FetchRecords, CallModel];
          match backend.upstream
          case Unreachable(message) => Fail(message, calls)
          case Answered(status, reply) =>
            if !Ok(status) then Outcome(UpstreamFailure(status), calls)
            else
              match reply
              case ReplyUnreadable(message) => Fail(message, calls)
              case Content(content) =>
                var results := Results(Extract(content, parse),
                  backend.meetings.GetOr([]), backend.policies.GetOr([]), query.value);
                Outcome(Response(200, JsonHeaders, ResultsBody(results)), calls)
  }
}

=== FILE: properties.dfy ===
/**
  What the handler in `supabase/functions/ai-search/index.ts` promises its
  callers, stated over all requests and backends. Line numbers below refer
  to that file.
 */
module Properties {
  import opened Wrappers
  import opened Text
  import opened Seqs
  import opened Records
  import opened Extraction
  import opened Fallback
  import opened Handler

  /** The request passes every check before the gateway call (lines 10-51). */
  predicate Admitted(req: Request, backend: Backend) {
    && req.verb != "OPTIONS"
    && req.body.Json?
    && Truthy(req.body.query)
    && Truthy(req.authorization)
    && backend.auth == Verified
    && Truthy(backend.apiKey)
  }

  /** The gateway answered OK with readable content. */
  predicate Answers(backend: Backend, content: Option<string>) {
    && backend.upstream.Answered?
    && Ok(backend.upstream.status)
    && backend.upstream.reply == Content(content)
  }

  lemma PreflightAnswersEmpty(req: Request, backend: Backend, parse: Parser)
    requires req.verb == "OPTIONS"
    ensures Handle(req, backend, parse) == Outcome(Response(200, CorsHeaders, NoBody), [])
  {
  }

  /** A falsy query is refused before the authorization header is looked at. */
  lemma QueryCheckedFirst(req: Request, backend: Backend, parse: Parser)
    requires req.verb != "OPTIONS" && req.body.Json? && !Truthy(req.body.query)
    ensures Handle(req, backend, parse) == Outcome(Response(500, JsonHeaders, ErrorBody(QueryRequired)), [])
  {
  }

  lemma AuthorizationHeaderRequired(req: Request, backend: Backend, parse: Parser)
    requires req.verb != "OPTIONS" && req.body.Json? && Truthy(req.body.query)
    requires !Truthy(req.authorization)
    ensures Handle(req, backend, parse) == Outcome(Response(500, JsonHeaders, ErrorBody(NoAuthorization)), [])
  {
  }

  /** A caller the auth service does not verify gets no table query and no model call. */
  lemma UnverifiedCallerRejected(req: Request, backend: Backend, parse: Parser)
    requires req.verb != "OPTIONS" && req.body.Json? && Truthy(req.body.query)
    requires Truthy(req.authorization) && backend.auth == NotVerified
    ensures Handle(req, backend, parse) == Outcome(Response(500, JsonHeaders, ErrorBody(Unauthorized)), [VerifyUser])
  {
  }

  /** The tables are queried only for a verified caller, and the model only when the key is set as well. */
  lemma RemoteCallsFollowGates(req: Request, backend: Backend, parse: Parser)
    ensures FetchRecords in Handle(req, backend, parse).calls ==>
      && req.verb != "OPTIONS" && req.body.Json? && Truthy(req.body.query)
      && Truthy(req.authorization) && backend.auth == Verified
    ensures CallModel in Handle(req, backend, parse).calls <==> Admitted(req, backend)
  {
  }

  /** A non-OK gateway status: 429 and 402 are passed through, the rest are a 500. */
  lemma UpstreamStatusMapped(req: Request, backend: Backend, parse: Parser)
    requires Admitted(req, backend)
    requires backend.upstream.Answered? && !Ok(backend.upstream.status)
    ensures var o := Handle(req, backend, parse);
      && o.calls == [VerifyUser, FetchRecords, CallModel]
      && (backend.upstream.status == 429 ==> o.response == Response(429, JsonHeaders, ErrorBody(RateLimited)))
      && (backend.upstream.status == 402 ==> o.response == Response(402, JsonHeaders, ErrorBody(PaymentRequired)))
      && (backend.upstream.status != 429 && backend.upstream.status != 402 ==>
            o.response == Response(500, JsonHeaders, ErrorBody(SearchFailed)))
  {
  }

  /** An admitted request whose gateway answered OK gets 200 with the `results` of lines 100-126. */
  lemma AnsweredGivesResults(req: Request, backend: Backend, parse: Parser, content: Option<string>)
    requires Admitted(req, backend) && Answers(backend, content)
    ensures Handle(req, backend, parse) == Outcome(
      Response(200, JsonHeaders, ResultsBody(Results(Extract(content, parse),
        backend.meetings.GetOr([]), backend.policies.GetOr([]), req.body.query.value))),
      [VerifyUser, FetchRecords, CallModel])
  {
  }

  /** A reply whose bracket span parses is returned as parsed: no cap of five, no filtering. */
  lemma ParsedArrayReturnedUnchanged(req: Request, backend: Backend, parse: Parser, s: string, items: seq<SearchResult>)
    requires Admitted(req, backend) && Answers(backend, Some(s))
    requires MatchArray(s).Some? && parse(MatchArray(s).value) == Some(items)
    ensures Handle(req, backend, parse).response == Response(200, JsonHeaders, ResultsBody(items))
  {
    AnsweredGivesResults(req, backend, parse, Some(s));
  }

  /** A reply without a bracket span gives empty results, and the fallback is not used. */
  lemma NoArrayGivesNoResults(req: Request, backend: Backend, parse: Parser, s: string)
    requires Admitted(req, backend) && Answers(backend, Some(s))
    requires !exists i, j :: IsBracketSpan(s, i, j)
    ensures Handle(req, backend, parse).response == Response(200, JsonHeaders, ResultsBody([]))
  {
    AnsweredGivesResults(req, backend, parse, Some(s));
  }

  /**
    The fallback answers exactly when extraction throws: the content is
    absent, or its bracket span does not parse. Otherwise the results are
    the parsed array, or empty when there was no span.
   */
  lemma FallbackWhenExtractionThrows(req: Request, backend: Backend, parse: Parser, content: Option<string>)
    requires Admitted(req, backend) && Answers(backend, content)
    ensures Extract(content, parse) == Threw ==>
      Handle(req, backend, parse).response == Response(200, JsonHeaders, ResultsBody(
        FallbackResults(backend.meetings.GetOr([]), backend.policies.GetOr([]), req.body.query.value)))
    ensures Extract(content, parse) == NoArray ==>
      Handle(req, backend, parse).response == Response(200, JsonHeaders, ResultsBody([]))
    ensures Extract(content, parse).Parsed? ==>
      Handle(req, backend, parse).response == Response(200, JsonHeaders, ResultsBody(Extract(content, parse).items))
  {
    AnsweredGivesResults(req, backend, parse, content);
  }

  /**
    A title matching case-insensitively (lines 111-112): the query occurs in
    the title when letters are compared without regard to ASCII case.
   */
  lemma TitleMatchIgnoresCase(title: string, query: string)
    ensures TitleMatches(title, query) <==> exists i :: OccursIgnoringCaseAt(title, query, i)
  {
    LowerIncludesIgnoresCase(title, query);
  }

  lemma BudgetTitleMatches()
    ensures TitleMatches("Q4 Budget Planning", "budget")
  {
    var t: string := "Q4 Budget Planning";
    var lt: string := "q4 budget planning";
    assert Lower(t) == lt by {
      forall i | 0 <= i < |t|
        ensures Lower(t)[i] == lt[i]
      {
        assert LowerChar(t[i]) == lt[i];
      }
    }
    assert Lower("budget") == "budget";
    assert lt[3..9] == "budget";
    assert OccursAt(lt, "budget", 3);
  }

  /** The query "budget" finds the meeting "Q4 Budget Planning" when the reply cannot be parsed. */
  lemma BudgetMeetingFound()
    ensures var m := Meeting("m1", "Q4 Budget Planning", Some("Quarterly budget review"), None, "2024-10-01");
      FallbackResults([m], [], "budget") == [SearchResult(MeetingKind, "Q4 Budget Planning", "Quarterly budget review", None)]
  {
    var m := Meeting("m1", "Q4 Budget Planning", Some("Quarterly budget review"), None, "2024-10-01");
    var none: seq<Policy> := [];
    BudgetTitleMatches();
    assert MeetingHit("budget")(m);
    assert Positions([m], MeetingHit("budget")) == [0];
    var ms := MeetingEntries([m], "budget");
    assert |ms| == 1 && ms[0] == MeetingEntry(m);
    assert PolicyEntries(none, "budget") == [];
  }
}

=== FILE: records.dfy ===
/** The rows the handler reads and the result entries it returns. */
module Records {
  import opened Wrappers

  /** A row of the `meetings` table; only `title`, `description` and `summary` are used. */
  datatype Meeting = Meeting(
    id: string,
    title: string,
    description: Option<string>,
    summary: Option<string>,
    createdAt: string)

  /** A row of the `policies` table; only `title` and `description` are used. */
  datatype Policy = Policy(
    id: string,
    title: string,
    description: Option<string>,
    category: Option<string>,
    createdAt: string)

  /**
    One entry of the `results` array. Entries the fallback builds carry no
    relevance; entries parsed from the model's reply may.
   */
  datatype SearchResult = SearchResult(kind: string, title: string, summary: string, relevance: Option<real>)

  const MeetingKind: string := "meeting"
  const PolicyKind: string := "policy"
}

=== FILE: seqs.dfy ===
/** `Array.prototype.filter`, `slice(0, n)` and `map`, with the facts the fallback filter relies on. */
module Seqs {

  function Min(a: int, b: int): int {
    if a <= b then a else b
  }

  /** `s.filter(keep)`: the elements that pass `keep`, in their original order. */
  function Filter<T>(s: seq<T>, keep: T -> bool): (r: seq<T>)
    ensures |r| <= |s|
    ensures forall x :: x in r ==> x in s && keep(x)
    decreases |s|
  {
    if |s| == 0 then []
    else (if keep(s[0]) then [s[0]] else []) + Filter(s[1..], keep)
  }

  /** The indices of `s` whose elements pass `keep`, ascending. */
  function Positions<T>(s: seq<T>, keep: T -> bool): (r: seq<nat>)
    ensures |r| <= |s|
    decreases |s|
  {
    if |s| == 0 then []
    else
      var shifted := Shift(Positions(s[1..], keep));
      if keep(s[0]) then [0] + shifted else shifted
  }

  /** Every index of `t` moved one place right. */
  function Shift(t: seq<nat>): (r: seq<nat>)
    ensures |r| == |t|
    ensures forall j :: 0 <= j < |t| ==> r[j] == t[j] + 1
  {
    seq(|t|, j requires 0 <= j < |t| => t[j] + 1)
  }

  predicate StrictlyIncreasing(t: seq<nat>) {
    forall j, k :: 0 <= j < k < |t| ==> t[j] < t[k]
  }

  /**
    `Positions` is the witness that `Filter` keeps the passing elements in
    their original order: the j-th kept element is `s[Positions(s, keep)[j]]`
    and the positions ascend.
   */
  lemma {:induction false} FilterAtPositions<T>(s: seq<T>, keep: T -> bool)
    ensures |Positions(s, keep)| == |Filter(s, keep)|
    ensures StrictlyIncreasing(Positions(s, keep))
    ensures forall j :: 0 <= j < |Filter(s, keep)| ==>
      Positions(s, keep)[j] < |s| && s[Positions(s, keep)[j]] == Filter(s, keep)[j]
    decreases |s|
  {
    if |s| > 0 {
      var tail := s[1..];
      FilterAtPositions(tail, keep);
      var rest, ft := Positions(tail, keep), Filter(tail, keep);
      var shifted := Shift(rest);
      assert forall j :: 0 <= j < |shifted| ==> shifted[j] < |s| && s[shifted[j]] == ft[j] by {
        forall j | 0 <= j < |shifted|
          ensures shifted[j] < |s| && s[shifted[j]] == ft[j]
        {
          assert tail[rest[j]] == s[rest[j] + 1];
        }
      }
      if keep(s[0]) {
        assert Positions(s, keep) == [0] + shifted;
        assert Filter(s, keep) == [s[0]] + ft;
      } else {
        assert Positions(s, keep) == shifted;
        assert Filter(s, keep) == ft;
      }
    }
  }

  /** An index appears in `Positions(s, keep)` exactly when its element passes `keep`. */
  lemma {:induction false} PositionsComplete<T>(s: seq<T>, keep: T -> bool)
    ensures forall i :: 0 <= i < |s| ==> (keep(s[i]) <==> i in Positions(s, keep))
    decreases |s|
  {
    if |s| > 0 {
      var tail := s[1..];
      PositionsComplete(tail, keep);
      var rest := Positions(tail, keep);
      var shifted := Shift(rest);
      forall i | 0 <= i < |s|
        ensures keep(s[i]) <==> i in Positions(s, keep)
      {
        if i > 0 {
          assert s[i] == tail[i - 1];
          if i - 1 in rest {
            var j :| 0 <= j < |rest| && rest[j] == i - 1;
            assert shifted[j] == i;
          }
          if i in shifted {
            var j :| 0 <= j < |shifted| && shifted[j] == i;
            assert rest[j] == i - 1;
          }
        }
      }
    }
  }

  /** `s.slice(0, n)`: the first `n` elements, or all of them when there are fewer. */
  function FirstN<T>(s: seq<T>, n: nat): (r: seq<T>)
    ensures |r| == Min(n, |s|)
    ensures forall j :: 0 <= j < |r| ==> r[j] == s[j]
  {
    if |s| <= n then s else s[..n]
  }

  /** `s.map(f)` */
  function MapSeq<T, U>(f: T -> U, s: seq<T>): (r: seq<U>)
    ensures |r| == |s|
    ensures forall i :: 0 <= i < |s| ==> r[i] == f(s[i])
  {
    seq(|s|, i requires 0 <= i < |s| => f(s[i]))
  }
}

=== FILE: text.dfy ===
/**
  Strings as the search handler uses them: JavaScript truthiness of an
  optional string, `toLowerCase` (restricted to ASCII letters) and
  `String.prototype.includes`.
 */
module Text {
  import opened Wrappers

  /** JavaScript truthiness of a string-or-nullish value: `undefined`, `null` and `""` are falsy. */
  predicate Truthy(s: Option<string>) {
    s.Some? && s.value != ""
  }

  predicate IsUpper(c: char) {
    'A' <= c <= 'Z'
  }

  /** `toLowerCase` on one character; only the ASCII letters A-Z are folded. */
  function LowerChar(c: char): (r: char)
    ensures !IsUpper(r)
    ensures IsUpper(c) || r == c
  {
    if IsUpper(c) then (c as int + 32) as char else c
  }

  /** `s.toLowerCase()` */
  function Lower(s: string): (r: string)
    ensures |r| == |s|
    ensures forall i :: 0 <= i < |s| ==> r[i] == LowerChar(s[i])
  {
    seq(|s|, i requires 0 <= i < |s| => LowerChar(s[i]))
  }

  /**
    Two characters are the same letter up to ASCII case. Stated without
    `LowerChar`, as the reading of "case-insensitive" the fallback filter means.
   */
  predicate SameIgnoringCase(a: char, b: char) {
    || a == b
    || (IsUpper(a) && a as int + 32 == b as int)
    || (IsUpper(b) && b as int + 32 == a as int)
  }

  lemma LowerCharAgrees(a: char, b: char)
    ensures LowerChar(a) == LowerChar(b) <==> SameIgnoringCase(a, b)
  {
  }

  /** `p` occurs in `t` starting at index `i`. */
  predicate OccursAt(t: string, p: string, i: int) {
    0 <= i && i + |p| <= |t| && t[i..i + |p|] == p
  }

  /** `t.includes(p)`: substring search; the empty pattern is included in every string. */
  function Includes(t: string, p: string): (r: bool)
    ensures r <==> exists i :: OccursAt(t, p, i)
    decreases |t|
  {
    if |p| > |t| then false
    else if t[..|p|] == p then
      assert OccursAt(t, p, 0);
      true
    else
      var rest := Includes(t[1..], p);
      IncludesStep(t, p, rest);
      rest
  }

  lemma OccursAtShift(t: string, p: string, i: int)
    requires |t| > 0 && 0 <= i
    ensures OccursAt(t[1..], p, i) <==> OccursAt(t, p, i + 1)
  {
    if 0 <= i && i + |p| <= |t| - 1 {
      assert t[1..][i..i + |p|] == t[i + 1..i + 1 + |p|];
    }
  }

  /** When `p` is not a prefix of `t`, it occurs in `t` exactly when it occurs in `t`'s tail. */
  lemma IncludesStep(t: string, p: string, tailHit: bool)
    requires |p| <= |t| && t[..|p|] != p
    requires tailHit <==> exists i :: OccursAt(t[1..], p, i)
    ensures tailHit <==> exists i :: OccursAt(t, p, i)
  {
    if exists i :: OccursAt(t[1..], p, i) {
      var i :| OccursAt(t[1..], p, i);
      OccursAtShift(t, p, i);
    }
    if exists i :: OccursAt(t, p, i) {
      var i :| OccursAt(t, p, i);
      assert i != 0;
      OccursAtShift(t, p, i - 1);
    }
  }

  /** `p` occurs in `t` at `i`, comparing letters without regard to ASCII case. */
  predicate OccursIgnoringCaseAt(t: string, p: string, i: int) {
    0 <= i && i + |p| <= |t| && forall k :: 0 <= k < |p| ==> SameIgnoringCase(t[i + k], p[k])
  }

  /**
    `t.toLowerCase().includes(p.toLowerCase())` is a case-insensitive
    substring test.
   */
  lemma LowerIncludesIgnoresCase(t: string, p: string)
    ensures Includes(Lower(t), Lower(p)) <==> exists i :: OccursIgnoringCaseAt(t, p, i)
  {
    var lt, lp := Lower(t), Lower(p);
    forall i | 0 <= i && i + |p| <= |t|
      ensures OccursAt(lt, lp, i) <==> OccursIgnoringCaseAt(t, p, i)
    {
      forall k | 0 <= k < |p|
        ensures lt[i + k] == lp[k] <==> SameIgnoringCase(t[i + k], p[k])
      {
        LowerCharAgrees(t[i + k], p[k]);
      }
      if OccursAt(lt, lp, i) {
        forall k | 0 <= k < |p|
          ensures SameIgnoringCase(t[i + k], p[k])
        {
          assert lt[i..i + |p|][k] == lt[i + k];
        }
      }
      if OccursIgnoringCaseAt(t, p, i) {
        assert lt[i..i + |p|] == lp;
      }
    }
    if exists i :: OccursAt(lt, lp, i) {
      var i :| OccursAt(lt, lp, i);
      assert OccursIgnoringCaseAt(t, p, i);
    }
    if exists i :: OccursIgnoringCaseAt(t, p, i) {
      var i :| OccursIgnoringCaseAt(t, p, i);
      assert OccursAt(lt, lp, i);
    }
  }
}

=== FILE: wrappers.dfy ===
/** Optional values: a JavaScript value that may be `undefined` or `null`. */
module Wrappers {

  datatype Option<+T> = None | Some(value: T) {

    /** The value, or `default` when absent (JavaScript's `x || default` on arrays). */
    function GetOr(default: T): T {
      match this
      case Some(v) => v
      case None => default
    }
  }
}
